=== FILE: README.md ===
# Weather widget lookup pipeline: a Dafny model

The widget is one browser script (`index.js`). It looks up the current
weather for one of three things:

- a city typed into a search box;
- a country picked from ten shortcut buttons, which is looked up through its capital;
- the visitor's geolocated position at page load.

It calls two Open-Meteo endpoints, geocoding and then forecast. It renders a
card with an emoji glyph and a Russian description of the WMO weather code,
or it shows a fixed error sentence.

This project models the widget's decision logic as pure functions:

- `WeatherCodes` (`codes.dfy`): the code-to-glyph chain of tests and the code-to-description table. Both are total over the integers. It also has a reference grouping of the 24 listed codes into the weather groups of WMO code table 4677.
- `Text` (`text.dfy`): the trim applied to the search box: white space and line terminators as ECMA-262 defines them. It has a recursive specification and a two-pointer scan proved equal to it.
- `Capitals` (`capitals.dfy`): the ten-entry country-to-capital table, with its fallback to the country string.
- `Network` (`network.dfy`): the requests the widget issues and the abstract replies they get. A reply is either no response, or a status and a body. A body is either unreadable (its JSON parse rejects) or a parsed value whose relevant block may be missing. A forecast body whose `current` is absent or `null` counts as missing the block, and so does a body of `null`. A geocoding body that parses to an array or a primitive, or to an object whose `results` is absent or falsy, counts as having no `results`; one that parses to `null` throws on the `results` read and is treated like an unreadable body.
- `Widget` (`widget.dfy`): the page state the pipeline writes and the entry points.
  - The page state has two parts: the weather container (empty, the loading notice, or a card) and the error banner (a shown flag and a text; hiding keeps the text).
  - Each entry point is a function from the current view and the network's replies to the list of requests made and the view left behind.
- `WidgetProperties` (`properties.dfy`): lemmas that relate several calls: short-circuiting, first-result-only, when a card is rendered, the start-up branches, and worked examples.

Notable behaviour of the code, which the model reproduces:

- A forecast failure after a successful geocode leaves the loading notice in the container (index.js:73-76). The exception is a 2xx forecast body without `current`. A geocoding failure (index.js:94) and that body (index.js:132) are the only error paths that empty the container.
- A whitespace-only search shows its error but leaves the container as it was (index.js:30-33).
- The country-shortcut path neither trims nor rejects an empty name (index.js:126-127). So an empty country string is sent to geocoding as it stands.
- "City not found" has two different sentences: one for a non-2xx status (index.js:47) and one for an empty result list (index.js:54).
- The geolocation branch sets the loading notice without hiding the banner (index.js:282-283). An error shown earlier stays visible next to the new card.
- A 2xx forecast whose body has no `current` block first empties the container (index.js:132) and then fails. The failure is reported as the connection error (index.js:80-83).
- The geolocation request has no timeout (index.js:278). While the permission prompt stays unanswered, neither callback runs and page load makes no request.
- The placeholder for a geolocated card is the name "Ваше местоположение" with the country "Определяется..." (index.js:283).

## Model

| member | source | states |
|---|---|---|
| WeatherCodes.Icon | index.js:215-230 | the default glyph is returned exactly for the integers outside the 24 listed codes |
| WeatherCodes.Description | index.js:232-261 | a listed code gets its table text exactly; every other integer gets "Неизвестная погода"; the unknown text occurs exactly outside the 24 codes |
| WeatherCodes.TablesAgreeOnKeys | index.js:215-261 | the description table's keys are exactly the 24 codes the icon chain tests for |
| WeatherCodes.IconKnownIffDescribed | index.js:215-261 | a code has a non-default glyph exactly when it has a known description |
| WeatherCodes.IconFollowsCategory | index.js:216-227 | each listed code's glyph is the glyph of its group in WMO code table 4677, where the group is read from the code's decade |
| WeatherCodes.IconGroups | index.js:217-227 | 1 and 2 share ⛅; drizzle, rain and rain showers share 🌧️; 71/73/75/77 share ❄️; 95/96/99 share ⛈️ |
| Text.LeadingBlanks | index.js:29 | the count is the length of the all-white-space prefix, and the character after it (if any) is not white space |
| Text.TrailingStart | index.js:29 | the index starts the all-white-space suffix, and the character before it (if any) is not white space |
| Text.Trim | index.js:29 | the trimmed text is the slice right after the white-space prefix, only white space follows it, and it neither starts nor ends with white space |
| Text.LeadingBlanksUnique | index.js:29 | the white-space prefix is the only prefix that is all white space and not followed by white space |
| Text.TrailingStartUnique | index.js:29 | the white-space suffix is characterised the same way |
| Text.TrimEmptyIff | index.js:29-30 | trimming yields the empty (falsy) string exactly when the input is all white space |
| Text.TrimCharacterised | index.js:29 | the trimmed text is the only infix with nothing but white space before and after it that neither starts nor ends with white space |
| Text.TrimExample | index.js:29 | " a b " trims to "a b" and a tab, newline and space padded "Paris" to "Paris": only the outer white space goes |
| Text.TrimFixesTrimmed | index.js:29 | a text that neither starts nor ends with white space is unchanged by trimming |
| Text.TrimIdempotent | index.js:29 | trimming twice is the same as trimming once |
| Text.TrimBounds | index.js:29 | the scan's bounds delimit exactly the trimmed text, with only white space before and after them |
| Capitals.CityFor | index.js:113-126 | a listed country yields its table capital; any other string is passed through unchanged, and only listed countries are rewritten |
| Capitals.ShortcutCapitals | index.js:113-124 | each of the ten countries resolves to its capital, e.g. Japan to Tokyo |
| Widget.MessagesDistinct | index.js:31-82 | each problem has its own sentence (the empty query, the two "city not found" sentences, the connection error, the forecast error), so the banner text tells which one happened |
| Widget.ShowError | index.js:264-267 | the banner is shown with the problem's sentence and the container is not touched |
| Widget.HideError | index.js:270-272 | the banner is hidden, keeping its text, and the container is not touched |
| Widget.CardFor | index.js:131-154 | the card carries the given name, country, coordinates and conditions; its glyph is the default and its description the unknown text exactly when the weather code is outside the 24 listed codes |
| Widget.LocateCity | index.js:40-64 | no response or an unreadable body (a parse that rejects, or a body of `null`) is the connection error; a non-2xx status is "city not found"; an absent or empty result list is the other "not found"; otherwise the place is the first result |
| Widget.FetchForecast | index.js:67-84 | a 2xx reply with a `current` block renders that block's card and leaves the banner alone. Otherwise the banner is shown: the forecast error for a non-2xx status, and the connection error for no response, an unreadable body or a parsed body whose `current` is absent or `null`. Only that last case empties the container. Every other failure leaves the container as it was |
| Widget.GetWeather | index.js:87-109 | the first request geocodes the city; a second, forecast request is made exactly when geocoding found a place; at the end the banner is shown exactly when no card is shown |
| Widget.SearchWeather | index.js:28-37 | nothing is requested exactly when the box holds only white space. Then the empty-query error is shown, and the container and the box are left alone. Otherwise the trimmed text is geocoded and the box is emptied |
| Widget.WeatherByCountry | index.js:112-128 | a listed country runs exactly the name lookup of its table capital; any other string runs the lookup of the string as it stands |
| Widget.OnLoad | index.js:275-294 | no request is made exactly while the prompt is unanswered, and then the page is untouched. With a position, the only request is the forecast for it. A card is rendered exactly when that forecast is 2xx with a `current` block, and it is the card for the position under the placeholder name and country. A rendered card leaves the banner as it was. Otherwise the banner shows the forecast error for a non-2xx status and the connection error for any other failure. The loading notice stays, except that a 2xx body without `current` empties the container. When geolocation is unsupported or refused, the default city is geocoded |
| WidgetProperties.FirstResultOnly | index.js:53-58 | geocoding depends only on the first result; with a 2xx status that result is the one found |
| WidgetProperties.GeocodeFailureShortCircuits | index.js:92-96 | on a geocoding failure the run makes one request, empties the container, shows the geocoding error, and ignores the forecast reply |
| WidgetProperties.ForecastFollowsFirstResult | index.js:92-103 | after a successful geocode the forecast is requested for exactly the first result's coordinates, and a card carries its name, country and coordinates |
| WidgetProperties.RenderedIff | index.js:73-79 | a name lookup renders a card exactly when geocoding found a place and the forecast is 2xx with a `current` block; the card shows the conditions with their code's glyph and text |
| WidgetProperties.ForecastFailureKeepsLoading | index.js:73-83 | a forecast failure after a successful geocode shows the forecast error for a non-2xx status and the connection error otherwise; the loading notice stays unless the body lacked `current`, which empties the container |
| WidgetProperties.LaterStageErrorWins | index.js:80-83 | a forecast with no response after a successful geocode ends with the loading notice and the connection error |
| WidgetProperties.EmptySearchRequestsNothing | index.js:29-33 | a blank search makes no request, does not depend on any reply, and leaves the container as it was |
| WidgetProperties.SearchLooksUpTrimmed | index.js:29-36 | a non-blank search is the lookup of the trimmed text, followed by emptying the box |
| WidgetProperties.ShortcutLooksUpCapital | index.js:112-128 | the Japan shortcut geocodes Tokyo, and the empty country string is geocoded as it stands |
| WidgetProperties.PositionSkipsGeocoding | index.js:279-284 | at page load with a position, only the forecast is requested, the geocoding reply is irrelevant, a card renders exactly when the forecast is 2xx with a `current` block, and a banner already shown stays shown |
| WidgetProperties.NoPositionFallsBack | index.js:285-293 | when geolocation is refused or unsupported, page load is the lookup of Moscow |
| WidgetProperties.PendingPromptDoesNothing | index.js:277-289 | while the geolocation prompt is unanswered, page load makes no request and leaves the page as it was |
| WidgetProperties.GeocodeExamples | index.js:53-58 | an empty or absent result list is "not found"; a single Paris result is returned as it stands |
| WidgetProperties.BerlinEndToEnd | index.js:87-103 | Berlin geocoded to 52.52/13.40 with a code-1 forecast renders a Berlin card with ⛅ and "Преимущественно ясно", and the banner is hidden |

## Left out

- HTTP transport, URL construction, `encodeURIComponent` and JSON parsing are foreign calls. Replies are abstract inputs, and requests are recorded only by name or by coordinates. The fixed query parameters are not modelled: `count=1`, `language=ru`, the list of forecast fields and `timezone=auto`.
- DOM work is not modelled: the card's HTML template, the banner's CSS class, the injected stylesheet, and `console.error` logging. The card is a record of what it shows.
- The numeric formatting on the card is floating-point presentation and is left out: `Math.round`, `visibility / 1000` and `toFixed(2)`. The card holds the conditions verbatim.
- The catch branch of `getWeather` (index.js:104-108) cannot be reached in this model. The geocoding and forecast steps catch all of their own exceptions, and the view updates around them cannot throw.
- Intermediate views are not modelled: a run's view is the one left at the end. The loading notice shown while a request is pending is not a separate state. The box is emptied only after the lookup completes, and the model keeps only that order.
- Overlapping lookups, where the last response wins, are async interleaving and are not modelled.
- The browser geolocation API is a collaborator. Its outcome is an input: unsupported, refused, a prompt never answered, or a position.
- `getWeatherByCoordinatesOld` (index.js:297-318) is dead code and is not modelled. Nothing calls it.
- Quirks of JavaScript property lookup are not modelled. Examples are a country or code key that names an `Object.prototype` member, or a missing `data-country` attribute. The tables are finite maps with a fallback.
- Weather codes are integers. A missing or non-integer numeric `weather_code` gets the default glyph and the unknown text in the script, but it cannot be written here. A numeric string such as "1" also cannot be written here, and there the two tables disagree: the strict tests give the default glyph (index.js:218), but the description lookup finds "Преимущественно ясно" (index.js:260). Missing `name` or `country` fields in a geocoding result are likewise not representable.
- Two body shapes are not representable. (1) A forecast `current` that is a non-null primitive, as in `{"current": 5}`. Reading its fields yields `undefined` without throwing, so the script renders a card with the default glyph, the unknown text and NaN fields (index.js:134-211). (2) A truthy geocoding `results` that is not a list of places, such as `5`, `{}` or `[null]`. The script then returns a falsy place without showing an error (index.js:58), and `getWeather` empties the container with the banner hidden (index.js:89, 93-95). So the rule that the banner is shown exactly when no card is shown holds only for the representable bodies.
- Characters are Unicode scalar values, not UTF-16 code units. Every character the trim removes is in the Basic Multilingual Plane, so the result is the same.

=== FILE: capitals.dfy ===
/**
 The quick-select buttons name a country; the widget looks up that
 country's capital in a fixed table and searches for the capital instead.
 */
module Capitals {

  /** The ten countries offered as shortcuts, and their capitals. */
  const CapitalOf: map<string, string> := map[
    "Russia" := "Moscow",
    "USA" := "Washington",
    "China" := "Beijing",
    "Japan" := "Tokyo",
    "Germany" := "Berlin",
    "France" := "Paris",
    "Canada" := "Ottawa",
    "Australia" := "Canberra",
    "India" := "New Delhi",
    "Brazil" := "Brasília"
  ]

  /**
   The city searched for a country: its table entry, or the country string
   itself when the entry is missing or falsy (the empty string).
   */
  function CityFor(country: string): (city: string)
    ensures country in CapitalOf ==> city == CapitalOf[country]
    ensures country !in CapitalOf ==> city == country
  {
    if country in CapitalOf && CapitalOf[country] != "" then CapitalOf[country] else country
  }

  /** The ten shortcuts resolve to their capitals. */
  lemma ShortcutCapitals()
    ensures CityFor("Russia") == "Moscow"
    ensures CityFor("USA") == "Washington"
    ensures CityFor("China") == "Beijing"
    ensures CityFor("Japan") == "Tokyo"
    ensures CityFor("Germany") == "Berlin"
    ensures CityFor("France") == "Paris"
    ensures CityFor("Canada") == "Ottawa"
    ensures CityFor("Australia") == "Canberra"
    ensures CityFor("India") == "New Delhi"
    ensures CityFor("Brazil") == "Brasília"
  {
  }
}

=== FILE: codes.dfy ===
/**
 The weather-code tables of the widget: the Open-Meteo subset of the WMO
 present-weather codes (WMO code table 4677), mapped to an emoji glyph and
 to a one-line Russian description. Both maps are total over the integers;
 a code outside the 24 listed ones gets a default glyph and an "unknown"
 description.
 */
module WeatherCodes {

  /** The 24 codes both tables recognise. */
  const KnownCodes: set<int> :=
    {0, 1, 2, 3, 45, 48, 51, 53, 55, 61, 63, 65, 71, 73, 75, 77, 80, 81, 82, 85, 86, 95, 96, 99}

  const ClearGlyph := "☀️"
  const PartlyCloudyGlyph := "⛅"
  const OvercastGlyph := "☁️"
  const FogGlyph := "🌫️"
  const RainGlyph := "🌧️"
  const SnowGlyph := "❄️"
  const SnowShowersGlyph := "🌨️"
  const ThunderstormGlyph := "⛈️"
  /** The "partly sunny" glyph returned for every code outside the table. */
  const DefaultGlyph := "🌤️"

  const UnknownWeather := "Неизвестная погода"

  /** The icon chosen for a weather code, one test after another. */
  function Icon(code: int): (glyph: string)
    ensures glyph == DefaultGlyph <==> code !in KnownCodes
  {
    if code == 0 then ClearGlyph
    else if code == 1 || code == 2 then PartlyCloudyGlyph
    else if code == 3 then OvercastGlyph
    else if code == 45 || code == 48 then FogGlyph
    else if code == 51 || code == 53 || code == 55 then RainGlyph
    else if code == 61 || code == 63 || code == 65 then RainGlyph
    else if code == 71 || code == 73 || code == 75 then SnowGlyph
    else if code == 77 then SnowGlyph
    else if code == 80 || code == 81 || code == 82 then RainGlyph
    else if code == 85 || code == 86 then SnowShowersGlyph
    else if code == 95 || code == 96 || code == 99 then ThunderstormGlyph
    else DefaultGlyph
  }

  /** The description table, keyed by weather code. */
  const Descriptions: map<int, string> := map[
    0 := "Ясно",
    1 := "Преимущественно ясно",
    2 := "Частично облачно",
    3 := "Облачно",
    45 := "Туман",
    48 := "Иней",
    51 := "Легкая морось",
    53 := "Морось",
    55 := "Сильная морось",
    61 := "Небольшой дождь",
    63 := "Дождь",
    65 := "Сильный дождь",
    71 := "Небольшой снег",
    73 := "Снег",
    75 := "Сильный снег",
    77 := "Снежная крупа",
    80 := "Небольшие дождевые ливни",
    81 := "Дождевые ливни",
    82 := "Сильные дождевые ливни",
    85 := "Небольшие ливни со снегом",
    86 := "Ливни со снегом",
    95 := "Грозовой дождь",
    96 := "Грозовой дождь с градом",
    99 := "Грозовой дождь с сильным градом"
  ]

  /**
   The description of a code. The table lookup falls back to the unknown
   text when the entry is missing or falsy, that is, the empty string.
   */
  function Description(code: int): (text: string)
    ensures code in Descriptions ==> text == Descriptions[code]
    ensures code !in Descriptions ==> text == UnknownWeather
    ensures text == UnknownWeather <==> code !in KnownCodes
  {
    if code in Descriptions && Descriptions[code] != "" then Descriptions[code]
    else UnknownWeather
  }

  /** The weather groups of WMO code table 4677 that the listed codes fall in. */
  datatype Category =
    | ClearSky
    | PartlyCloudy
    | Overcast
    | Fog
    | Drizzle
    | Rain
    | Snow
    | RainShowers
    | SnowShowers
    | Thunderstorm

  /**
   The group of a listed code, read off its decade as WMO code table 4677
   arranges them: 4x fog, 5x drizzle, 6x rain, 7x snow, 80-82 rain showers,
   85-86 snow showers, 9x thunderstorm; 0-3 describe the sky.
   */
  function CategoryOf(code: int): Category
    requires code in KnownCodes
  {
    if code == 0 then ClearSky
    else if code < 3 then PartlyCloudy
    else if code == 3 then Overcast
    else if code / 10 == 4 then Fog
    else if code / 10 == 5 then Drizzle
    else if code / 10 == 6 then Rain
    else if code / 10 == 7 then Snow
    else if code / 10 == 8 && code < 85 then RainShowers
    else if code / 10 == 8 then SnowShowers
    else Thunderstorm
  }

  /** One glyph per group; drizzle, rain and rain showers share the rain glyph. */
  function CategoryGlyph(c: Category): string {
    match c
    case ClearSky => ClearGlyph
    case PartlyCloudy => PartlyCloudyGlyph
    case Overcast => OvercastGlyph
    case Fog => FogGlyph
    case Drizzle | Rain | RainShowers => RainGlyph
    case Snow => SnowGlyph
    case SnowShowers => SnowShowersGlyph
    case Thunderstorm => ThunderstormGlyph
  }

  /** Both tables recognise exactly the same 24 codes. */
  lemma TablesAgreeOnKeys()
    ensures Descriptions.Keys == KnownCodes
  {
  }

  /** A code has a non-default icon exactly when it has a known description. */
  lemma IconKnownIffDescribed(code: int)
    ensures Icon(code) != DefaultGlyph <==> Description(code) != UnknownWeather
  {
  }

  /** The glyph of a listed code is the glyph of its WMO group. */
  lemma IconFollowsCategory(code: int)
    requires code in KnownCodes
    ensures Icon(code) == CategoryGlyph(CategoryOf(code))
  {
  }

  /** The sharing of glyphs between groups. */
  lemma IconGroups()
    ensures Icon(1) == Icon(2) == PartlyCloudyGlyph
    ensures forall code :: code in {51, 53, 55, 61, 63, 65, 80, 81, 82} ==> Icon(code) == RainGlyph
    ensures forall code :: code in {71, 73, 75, 77} ==> Icon(code) == SnowGlyph
    ensures forall code :: code in {95, 96, 99} ==> Icon(code) == ThunderstormGlyph
  {
  }
}

=== FILE: network.dfy ===
/**
 The two HTTP endpoints as the widget sees them. The transport is not
 modelled: a request is recorded, and the reply it gets is an abstract
 value supplied from outside.
 */
module Network {

  datatype Option<+T> = None | Some(value: T)

  /** A request the widget issues. */
  datatype Request =
    | GeocodeRequest(name: string)
    | ForecastRequest(latitude: real, longitude: real)

  /**
   What a request comes back with: no response at all (the fetch rejects,
   as on a connection error), or a response with an HTTP status and a body.
   */
  datatype Reply<+B> =
    | NoResponse
    | Response(status: int, body: B)
  {
    /** The response's `ok` flag: a status in the 2xx range. */
    predicate Ok() {
      Response? && 200 <= status <= 299
    }
  }

  /** One entry of the geocoding endpoint's `results` list. */
  datatype Place = Place(name: string, country: string, latitude: real, longitude: real)

  /**
   The geocoding body of a 2xx reply. `GeocodeUnreadable` is a body whose
   JSON parse rejects; a body that parses to `null` behaves the same,
   because reading `results` from it throws into the same catch.
   `GeocodeJson(None)` is any other parsed value whose `results` is absent
   or falsy: an object lacking it, an array, a number, a string.
   `GeocodeJson(Some(list))` is an object whose `results` is a list of
   places. A truthy `results` of any other shape cannot be written here.
   */
  datatype GeocodeBody =
    | GeocodeUnreadable
    | GeocodeJson(results: Option<seq<Place>>)

  /** The `current` block of the forecast endpoint, field by field. */
  datatype Conditions = Conditions(
    temperature: real,
    apparentTemperature: real,
    humidity: int,
    precipitation: real,
    windSpeed: real,
    pressure: real,
    visibility: real,
    weatherCode: int)

  /**
   The forecast body of a 2xx reply. `ForecastUnreadable` is a body whose
   JSON parse rejects. `ForecastJson(None)` is a parsed value whose
   `current` is absent or `null` (a body of `null` included); each of them
   fails when the block's fields are read. `ForecastJson(Some(c))` is an
   object whose `current` is the block `c`. A `current` that is some other
   primitive cannot be written here.
   */
  datatype ForecastBody =
    | ForecastUnreadable
    | ForecastJson(current: Option<Conditions>)
}

=== FILE: properties.dfy ===
/**
 Properties of the lookup pipeline that relate several calls or pin down
 the behaviour of an entry point as a whole.
 */
module WidgetProperties {
  import opened Network
  import opened Widget
  import WeatherCodes
  import Text
  import Capitals

  /** Only the first geocoding result matters; later ones are ignored. */
  lemma FirstResultOnly(status: int, first: Place, rest1: seq<Place>, rest2: seq<Place>)
    ensures LocateCity(Response(status, GeocodeJson(Some([first] + rest1))))
         == LocateCity(Response(status, GeocodeJson(Some([first] + rest2))))
    ensures 200 <= status <= 299 ==>
              LocateCity(Response(status, GeocodeJson(Some([first] + rest1)))) == Found(first)
  {
  }

  /**
   When geocoding fails, the forecast is never requested: the run makes one
   request, empties the container, shows the geocoding error, and does not
   depend on any forecast reply.
   */
  lemma GeocodeFailureShortCircuits(v: View, city: string, geocode: Reply<GeocodeBody>,
                                    forecast1: Reply<ForecastBody>, forecast2: Reply<ForecastBody>)
    requires LocateCity(geocode).Missing?
    ensures GetWeather(v, city, geocode, forecast1).requests == [GeocodeRequest(city)]
    ensures GetWeather(v, city, geocode, forecast1).view
         == View(Blank, Banner(true, Message(LocateCity(geocode).problem)))
    ensures GetWeather(v, city, geocode, forecast1) == GetWeather(v, city, geocode, forecast2)
  {
  }

  /**
   After a successful geocode, the forecast is requested for exactly the
   first result's coordinates, and a card, when one is rendered, carries
   that result's name, country and coordinates.
   */
  lemma ForecastFollowsFirstResult(v: View, city: string, status: int, first: Place, rest: seq<Place>,
                                   forecast: Reply<ForecastBody>)
    requires 200 <= status <= 299
    ensures var r := GetWeather(v, city, Response(status, GeocodeJson(Some([first] + rest))), forecast);
            && r.requests == [GeocodeRequest(city), ForecastRequest(first.latitude, first.longitude)]
            && (r.view.container.Card? ==>
                  && r.view.container.card.name == first.name
                  && r.view.container.card.country == first.country
                  && r.view.container.card.latitude == first.latitude
                  && r.view.container.card.longitude == first.longitude)
  {
  }

  /**
   A lookup by name renders a card exactly when geocoding found a place and
   the forecast reply is a 2xx with a `current` block; the card shows the
   conditions verbatim with the glyph and text of their weather code.
   */
  lemma RenderedIff(v: View, city: string, geocode: Reply<GeocodeBody>, forecast: Reply<ForecastBody>)
    ensures GetWeather(v, city, geocode, forecast).view.container.Card?
        <==> LocateCity(geocode).Found? && Readable(forecast)
    ensures GetWeather(v, city, geocode, forecast).view.container.Card? ==>
              var card := GetWeather(v, city, geocode, forecast).view.container.card;
              && card.conditions == forecast.body.current.value
              && card.icon == WeatherCodes.Icon(card.conditions.weatherCode)
              && card.description == WeatherCodes.Description(card.conditions.weatherCode)
  {
  }

  /**
   A forecast failure after a successful geocode shows the forecast error
   for a non-2xx status and the connection error otherwise, and leaves the
   loading notice in place; only a body without a `current` block empties
   the container.
   */
  lemma ForecastFailureKeepsLoading(v: View, city: string, geocode: Reply<GeocodeBody>, forecast: Reply<ForecastBody>)
    requires LocateCity(geocode).Found?
    requires !Readable(forecast)
    ensures var w := GetWeather(v, city, geocode, forecast).view;
            && w.banner.shown
            && w.banner.text == Message(if forecast.Response? && !forecast.Ok() then ForecastRejected else ConnectionLost)
            && (w.container == Blank <==> forecast.Ok() && forecast.body == ForecastJson(None))
            && (w.container == Loading <==> !(forecast.Ok() && forecast.body == ForecastJson(None)))
  {
  }

  /**
   The error of the later stage is the one reported: a connection failure
   of the forecast after a successful geocode shows the connection error,
   and nothing of the geocoded place reaches the view.
   */
  lemma LaterStageErrorWins(v: View, city: string, geocode: Reply<GeocodeBody>)
    requires LocateCity(geocode).Found?
    ensures GetWeather(v, city, geocode, NoResponse).view
         == View(Loading, Banner(true, Message(ConnectionLost)))
  {
  }

  /**
   A search box holding only white space shows the empty-query error, makes
   no request whatever the network would answer, and leaves both the
   container and the box's text as they were.
   */
  lemma EmptySearchRequestsNothing(v: View, field: string,
                                   geocode1: Reply<GeocodeBody>, forecast1: Reply<ForecastBody>,
                                   geocode2: Reply<GeocodeBody>, forecast2: Reply<ForecastBody>)
    requires Text.AllWhitespace(field)
    ensures SearchWeather(v, field, geocode1, forecast1).run.requests == []
    ensures SearchWeather(v, field, geocode1, forecast1) == SearchWeather(v, field, geocode2, forecast2)
    ensures SearchWeather(v, field, geocode1, forecast1).run.view.container == v.container
  {
  }

  /** A non-blank search looks up the trimmed text and then empties the box. */
  lemma SearchLooksUpTrimmed(v: View, field: string, geocode: Reply<GeocodeBody>, forecast: Reply<ForecastBody>)
    requires !Text.AllWhitespace(field)
    ensures SearchWeather(v, field, geocode, forecast)
         == Search(GetWeather(v, Text.Trim(field), geocode, forecast), "")
  {
  }

  /**
   The Japan shortcut geocodes Tokyo, and an empty country string is
   geocoded as it stands: this path has no empty-input check.
   */
  lemma ShortcutLooksUpCapital(v: View, geocode: Reply<GeocodeBody>, forecast: Reply<ForecastBody>)
    ensures WeatherByCountry(v, "Japan", geocode, forecast).requests[0] == GeocodeRequest("Tokyo")
    ensures WeatherByCountry(v, "", geocode, forecast).requests[0] == GeocodeRequest("")
  {
  }

  /**
   At page load with a position, no geocoding happens: the one request is
   the forecast for that position, the geocoding reply is irrelevant, a
   card renders exactly when the forecast is readable, and a banner already
   shown stays shown even when the card renders.
   */
  lemma PositionSkipsGeocoding(v: View, latitude: real, longitude: real,
                               geocode1: Reply<GeocodeBody>, geocode2: Reply<GeocodeBody>,
                               forecast: Reply<ForecastBody>)
    ensures forall q :: q in OnLoad(v, Position(latitude, longitude), geocode1, forecast).requests ==> q.ForecastRequest?
    ensures OnLoad(v, Position(latitude, longitude), geocode1, forecast)
         == OnLoad(v, Position(latitude, longitude), geocode2, forecast)
    ensures v.banner.shown ==> OnLoad(v, Position(latitude, longitude), geocode1, forecast).view.banner.shown
    ensures OnLoad(v, Position(latitude, longitude), geocode1, forecast).view.container.Card? <==> Readable(forecast)
  {
  }

  /** When geolocation is unsupported or refused, page load is the lookup of the default city. */
  lemma NoPositionFallsBack(v: View, here: Geolocation, geocode: Reply<GeocodeBody>, forecast: Reply<ForecastBody>)
    requires here.Unsupported? || here.Refused?
    ensures OnLoad(v, here, geocode, forecast) == GetWeather(v, "Moscow", geocode, forecast)
  {
  }

  /**
   While the geolocation prompt stays unanswered, page load makes no
   request and leaves the page exactly as it was.
   */
  lemma PendingPromptDoesNothing(v: View, geocode: Reply<GeocodeBody>, forecast: Reply<ForecastBody>)
    ensures OnLoad(v, Pending, geocode, forecast) == Run([], v)
  {
  }

  /** An empty result list is "not found"; a single result is returned as it stands. */
  lemma GeocodeExamples(status: int)
    requires 200 <= status <= 299
    ensures LocateCity(Response(status, GeocodeJson(Some([])))) == Missing(NoResults)
    ensures LocateCity(Response(status, GeocodeJson(None))) == Missing(NoResults)
    ensures var paris := Place("Paris", "France", 48.85, 2.35);
            LocateCity(Response(status, GeocodeJson(Some([paris])))) == Found(paris)
  {
  }

  /** End to end: a name lookup with both endpoints answering renders their data. */
  lemma BerlinEndToEnd(v: View, c: Conditions)
    requires c.temperature == 18.0 && c.weatherCode == 1
    ensures var berlin := Place("Berlin", "Germany", 52.52, 13.40);
            var r := GetWeather(v, "Berlin", Response(200, GeocodeJson(Some([berlin]))), Response(200, ForecastJson(Some(c))));
            && r.requests == [GeocodeRequest("Berlin"), ForecastRequest(52.52, 13.40)]
            && r.view.container == Card(WeatherCard("Berlin", "Germany", 52.52, 13.40, "⛅", "Преимущественно ясно", c))
            && !r.view.banner.shown
  {
  }
}

=== FILE: text.dfy ===
/**
 String trimming as the search box applies it: leading and trailing white
 space and line terminators are removed, nothing inside is touched.
 */
module Text {

  /**
   The white-space and line-terminator characters the trim of an
   ECMAScript string removes (section 12.2 and 12.3 of ECMA-262): tab,
   vertical tab, form feed, space, no-break space, the byte-order mark,
   the space separators of Unicode category Zs, line feed, carriage return,
   line separator and paragraph separator.
   */
  predicate IsWhitespace(c: char) {
    || c == '\t' || c == '\n' || c == '\U{000B}' || c == '\U{000C}' || c == '\r'
    || c == ' ' || c == '\U{00A0}' || c == '\U{1680}'
    || ('\U{2000}' <= c <= '\U{200A}')
    || c == '\U{2028}' || c == '\U{2029}' || c == '\U{202F}' || c == '\U{205F}'
    || c == '\U{3000}' || c == '\U{FEFF}'
  }

  /** True when every character of `s` is white space (vacuously for ""). */
  predicate AllWhitespace(s: seq<char>) {
    forall k :: 0 <= k < |s| ==> IsWhitespace(s[k])
  }

  /** The length of the white-space prefix of `s`. */
  function LeadingBlanks(s: seq<char>): (n: nat)
    ensures n <= |s|
    ensures forall k :: 0 <= k < n ==> IsWhitespace(s[k])
    ensures n < |s| ==> !IsWhitespace(s[n])
  {
    if |s| == 0 || !IsWhitespace(s[0]) then 0
    else 1 + LeadingBlanks(s[1..])
  }

  /** The index where the white-space suffix of `s` begins. */
  function TrailingStart(s: seq<char>): (n: nat)
    ensures n <= |s|
    ensures AllWhitespace(s[n..])
    ensures 0 < n ==> !IsWhitespace(s[n - 1])
  {
    if |s| == 0 || !IsWhitespace(s[|s| - 1]) then |s|
    else
      var n := TrailingStart(s[..|s| - 1]);
      assert s[n..] == s[..|s| - 1][n..] + [s[|s| - 1]];
      n
  }

  /** `s` with its white-space prefix and suffix removed. */
  function Trim(s: seq<char>): (r: seq<char>)
    ensures LeadingBlanks(s) + |r| <= |s|
    ensures r == s[LeadingBlanks(s)..LeadingBlanks(s) + |r|]
    ensures AllWhitespace(s[LeadingBlanks(s) + |r|..])
    ensures r != [] ==> !IsWhitespace(r[0]) && !IsWhitespace(r[|r| - 1])
  {
    var t := s[LeadingBlanks(s)..];
    t[..TrailingStart(t)]
  }

  /** The white-space prefix is the only prefix that is all white space and is not followed by white space. */
  lemma {:induction false} LeadingBlanksUnique(s: seq<char>, n: nat)
    requires n <= |s| && AllWhitespace(s[..n])
    requires n < |s| ==> !IsWhitespace(s[n])
    ensures LeadingBlanks(s) == n
    decreases n
  {
    if n > 0 {
      assert s[0] == s[..n][0];
      assert s[1..][..n - 1] == s[..n][1..];
      LeadingBlanksUnique(s[1..], n - 1);
    }
  }

  /** Likewise the white-space suffix. */
  lemma {:induction false} TrailingStartUnique(s: seq<char>, n: nat)
    requires n <= |s| && AllWhitespace(s[n..])
    requires 0 < n ==> !IsWhitespace(s[n - 1])
    ensures TrailingStart(s) == n
    decreases |s|
  {
    if n < |s| {
      var front := s[..|s| - 1];
      assert s[|s| - 1] == s[n..][|s| - 1 - n];
      assert front[n..] == s[n..][..|s| - 1 - n];
      TrailingStartUnique(front, n);
    }
  }

  /** Trimming yields the empty string exactly when the input is all white space. */
  lemma TrimEmptyIff(s: seq<char>)
    ensures Trim(s) == [] <==> AllWhitespace(s)
  {
  }

  /** A string without white space at either end is its own trim. */
  lemma TrimFixesTrimmed(s: seq<char>)
    requires s == [] || (!IsWhitespace(s[0]) && !IsWhitespace(s[|s| - 1]))
    ensures Trim(s) == s
  {
  }

  /**
   The trim is the only infix of `s` that has nothing but white space
   before and after it and neither starts nor ends with white space.
   */
  lemma {:induction false} TrimCharacterised(s: seq<char>, lo: nat, hi: nat)
    requires lo <= hi <= |s|
    requires AllWhitespace(s[..lo]) && AllWhitespace(s[hi..])
    requires lo < hi ==> !IsWhitespace(s[lo]) && !IsWhitespace(s[hi - 1])
    ensures Trim(s) == s[lo..hi]
  {
    if lo < hi {
      LeadingBlanksUnique(s, lo);
      var t := s[lo..];
      assert t[hi - lo..] == s[hi..];
      assert t[hi - lo - 1] == s[hi - 1];
      TrailingStartUnique(t, hi - lo);
      assert s[lo..hi] == t[..hi - lo];
    } else {
      assert s == s[..lo] + s[hi..];
      TrimEmptyIff(s);
    }
  }

  /** Only the outer white space goes: inner spaces stay. */
  lemma TrimExample()
    ensures Trim(" a b ") == "a b"
    ensures Trim("\t\n Paris \r") == "Paris"
  {
    TrimCharacterised(" a b ", 1, 4);
    TrimCharacterised("\t\n Paris \r", 3, 8);
  }

  /** Trimming twice is trimming once. */
  lemma TrimIdempotent(s: seq<char>)
    ensures Trim(Trim(s)) == Trim(s)
  {
  }

  /**
   The trim as a two-pointer scan: `lo` moves right over leading white
   space, `hi` moves left over trailing white space, and the slice between
   them is the trimmed string.
   */
  method TrimBounds(s: seq<char>) returns (lo: nat, hi: nat)
    ensures lo <= hi <= |s|
    ensures AllWhitespace(s[..lo]) && AllWhitespace(s[hi..])
    ensures s[lo..hi] == Trim(s)
  {
    lo := 0;
    while lo < |s| && IsWhitespace(s[lo])
      invariant lo <= |s|
      invariant AllWhitespace(s[..lo])
    {
      assert s[..lo + 1] == s[..lo] + [s[lo]];
      lo := lo + 1;
    }
    hi := |s|;
    while hi > lo && IsWhitespace(s[hi - 1])
      invariant lo <= hi <= |s|
      invariant AllWhitespace(s[hi..])
    {
      assert s[hi - 1..] == [s[hi - 1]] + s[hi..];
      hi := hi - 1;
    }
    TrimCharacterised(s, lo, hi);
  }
}

=== FILE: widget.dfy ===
/**
 The lookup pipeline of the weather widget, as pure functions from the
 current view and the replies the network gives to the requests made and
 the view left behind.

 The page has two regions the pipeline writes to: the weather container
 (empty, a loading notice, or a weather card) and the error banner (a text
 and a flag saying whether it is shown). Each entry point (the search box,
 a country shortcut, page load) is one function here.
 */
module Widget {
  import opened Network
  import WeatherCodes
  import Text
  import Capitals

  /** The card the widget renders for a successful lookup. */
  datatype WeatherCard = WeatherCard(
    name: string,
    country: string,
    latitude: real,
    longitude: real,
    icon: string,
    description: string,
    conditions: Conditions)

  datatype Container = Blank | Loading | Card(card: WeatherCard)

  /** Hiding the banner keeps its last text; showing it replaces the text. */
  datatype Banner = Banner(shown: bool, text: string)

  datatype View = View(container: Container, banner: Banner)

  /** The requests one entry point made, in order, and the view it left. */
  datatype Run = Run(requests: seq<Request>, view: View)

  /** The search box after a search: what it did, and the box's new text. */
  datatype Search = Search(run: Run, field: string)

  /**
   What the browser's geolocation gave at page load. `Pending` is a
   permission prompt never answered: the request has no timeout, so
   neither callback runs.
   */
  datatype Geolocation =
    | Unsupported
    | Refused
    | Pending
    | Position(latitude: real, longitude: real)

  /** The failures the widget reports, one fixed sentence each. */
  datatype Problem =
    | EmptyQuery        // nothing but white space typed into the search box
    | CityRejected      // the geocoding endpoint answered with a non-2xx status
    | NoResults         // the geocoding endpoint found nothing
    | ConnectionLost    // no response, or a body that could not be read
    | ForecastRejected  // the forecast endpoint answered with a non-2xx status

  /** The sentence shown for a problem. */
  function Message(p: Problem): string {
    match p
    case EmptyQuery => "Пожалуйста, введите название города или страны"
    case CityRejected => "Город не найден. Пожалуйста, проверьте название."
    case NoResults => "Город не найден. Попробуйте другое название."
    case ConnectionLost => "Ошибка подключения. Проверьте интернет."
    case ForecastRejected => "Ошибка при получении данных о погоде."
  }

  /** No two problems share a sentence: the banner text tells which one happened. */
  lemma MessagesDistinct(p: Problem, q: Problem)
    ensures Message(p) == Message(q) ==> p == q
  {
  }

  /** The name and country shown on a card for the geolocated position. */
  const HereName := "Ваше местоположение"
  const HereCountry := "Определяется..."

  /** The city shown at page load when geolocation is not available. */
  const DefaultCity := "Moscow"

  /** Shows the problem's sentence in the banner; the container is not touched. */
  function ShowError(v: View, p: Problem): (w: View)
    ensures w.container == v.container
    ensures w.banner.shown && w.banner.text == Message(p)
  {
    v.(banner := Banner(true, Message(p)))
  }

  /** Hides the banner, keeping its text; the container is not touched. */
  function HideError(v: View): (w: View)
    ensures w.container == v.container
    ensures !w.banner.shown && w.banner.text == v.banner.text
  {
    v.(banner := v.banner.(shown := false))
  }

  /** The card for a forecast: the conditions verbatim, with the code's glyph and text. */
  function CardFor(name: string, country: string, latitude: real, longitude: real, c: Conditions): (card: WeatherCard)
    ensures card.name == name && card.country == country
    ensures card.latitude == latitude && card.longitude == longitude && card.conditions == c
    ensures card.icon == WeatherCodes.DefaultGlyph <==> c.weatherCode !in WeatherCodes.KnownCodes
    ensures card.description == WeatherCodes.UnknownWeather <==> c.weatherCode !in WeatherCodes.KnownCodes
  {
    WeatherCard(name, country, latitude, longitude,
                WeatherCodes.Icon(c.weatherCode), WeatherCodes.Description(c.weatherCode), c)
  }

  /** The outcome of the geocoding step. */
  datatype Located = Found(place: Place) | Missing(problem: Problem)

  /**
   Classifies the geocoding reply: a non-2xx status means the city was not
   found, as does an absent or empty result list; no response or an
   unreadable body is a connection error; otherwise the first result is
   the place, whatever follows it.
   */
  function LocateCity(reply: Reply<GeocodeBody>): (r: Located)
    ensures (r == Missing(ConnectionLost)) <==>
              reply.NoResponse? || (reply.Ok() && reply.body.GeocodeUnreadable?)
    ensures (r == Missing(CityRejected)) <==> reply.Response? && !reply.Ok()
    ensures (r == Missing(NoResults)) <==>
              reply.Ok() && reply.body.GeocodeJson?
              && (reply.body.results.None? || reply.body.results.value == [])
    ensures r.Found? ==>
              reply.Ok() && reply.body.GeocodeJson? && reply.body.results.Some?
              && |reply.body.results.value| > 0 && r.place == reply.body.results.value[0]
  {
    match reply
    case NoResponse => Missing(ConnectionLost)
    case Response(_, body) =>
      if !reply.Ok() then Missing(CityRejected)
      else
        match body
        case GeocodeUnreadable => Missing(ConnectionLost)
        case GeocodeJson(results) =>
          if results.None? || |results.value| == 0 then Missing(NoResults)
          else Found(results.value[0])
  }

  /** A 2xx forecast reply whose body has a `current` block. */
  predicate Readable(reply: Reply<ForecastBody>) {
    reply.Ok() && reply.body.ForecastJson? && reply.body.current.Some?
  }

  /**
   The forecast step for a known position. A non-2xx status or a failed
   fetch shows an error and leaves the container as it was; a readable
   body renders the card. A body without a `current` block gets as far as
   emptying the container before the read of the block fails, which is
   reported as a connection error.
   */
  function FetchForecast(v: View, latitude: real, longitude: real, name: string, country: string,
                         reply: Reply<ForecastBody>): (w: View)
    ensures Readable(reply) ==>
              && w.banner == v.banner
              && w.container == Card(CardFor(name, country, latitude, longitude, reply.body.current.value))
    ensures !Readable(reply) ==>
              && w.banner.shown
              && w.banner.text == Message(if reply.Response? && !reply.Ok() then ForecastRejected else ConnectionLost)
              && w.container == (if reply.Ok() && reply.body == ForecastJson(None) then Blank else v.container)
  {
    match reply
    case NoResponse => ShowError(v, ConnectionLost)
    case Response(_, body) =>
      if !reply.Ok() then ShowError(v, ForecastRejected)
      else
        match body
        case ForecastUnreadable => ShowError(v, ConnectionLost)
        case ForecastJson(None) => ShowError(v.(container := Blank), ConnectionLost)
        case ForecastJson(Some(c)) => v.(container := Card(CardFor(name, country, latitude, longitude, c)))
  }

  /**
   Looks a city up by name: hides the banner, shows the loading notice,
   geocodes, and on success fetches the forecast for the first result. A
   geocoding failure empties the container and makes no second request.
   */
  function GetWeather(v: View, city: string, geocode: Reply<GeocodeBody>, forecast: Reply<ForecastBody>): (r: Run)
    ensures 1 <= |r.requests| <= 2 && r.requests[0] == GeocodeRequest(city)
    ensures |r.requests| == 2 <==> LocateCity(geocode).Found?
    ensures r.view.banner.shown ==> !r.view.container.Card?
    ensures !r.view.banner.shown ==> r.view.container.Card?
  {
    var loading := HideError(v).(container := Loading);
    match LocateCity(geocode)
    case Missing(p) =>
      Run([GeocodeRequest(city)], ShowError(loading, p).(container := Blank))
    case Found(place) =>
      Run([GeocodeRequest(city), ForecastRequest(place.latitude, place.longitude)],
          FetchForecast(loading, place.latitude, place.longitude, place.name, place.country, forecast))
  }

  /**
   The search button and the Enter key: the typed text is trimmed; if
   nothing is left an error is shown and nothing is requested, otherwise
   the trimmed text is looked up and the box is emptied afterwards.
   */
  function SearchWeather(v: View, field: string, geocode: Reply<GeocodeBody>, forecast: Reply<ForecastBody>): (s: Search)
    ensures s.run.requests == [] <==> Text.AllWhitespace(field)
    ensures Text.AllWhitespace(field) ==>
              && s.field == field
              && s.run.view == View(v.container, Banner(true, Message(EmptyQuery)))
    ensures !Text.AllWhitespace(field) ==>
              s.field == "" && s.run.requests[0] == GeocodeRequest(Text.Trim(field))
  {
    Text.TrimEmptyIff(field);
    var city := Text.Trim(field);
    if city == [] then Search(Run([], ShowError(v, EmptyQuery)), field)
    else Search(GetWeather(v, city, geocode, forecast), "")
  }

  /**
   A country shortcut: the capital from the table, or the country string
   itself, is looked up by name. This path neither trims nor checks for
   an empty name.
   */
  function WeatherByCountry(v: View, country: string, geocode: Reply<GeocodeBody>, forecast: Reply<ForecastBody>): (r: Run)
    ensures country in Capitals.CapitalOf ==> r == GetWeather(v, Capitals.CapitalOf[country], geocode, forecast)
    ensures country !in Capitals.CapitalOf ==> r == GetWeather(v, country, geocode, forecast)
  {
    GetWeather(v, Capitals.CityFor(country), geocode, forecast)
  }

  /**
   Page load: with a position, the forecast is fetched directly under the
   placeholder name, without geocoding and without hiding the banner;
   when geolocation is unsupported or refused, the default city is looked
   up; while the prompt stays unanswered nothing happens at all.
   */
  function OnLoad(v: View, here: Geolocation, geocode: Reply<GeocodeBody>, forecast: Reply<ForecastBody>): (r: Run)
    ensures r.requests == [] <==> here.Pending?
    ensures here.Pending? ==> r.view == v
    ensures here.Position? ==> r.requests == [ForecastRequest(here.latitude, here.longitude)]
    ensures here.Unsupported? || here.Refused? ==> r.requests[0] == GeocodeRequest(DefaultCity)
    ensures here.Position? ==> (r.view.container.Card? <==> Readable(forecast))
    ensures here.Position? && Readable(forecast) ==>
              r.view.container == Card(CardFor(HereName, HereCountry, here.latitude, here.longitude,
                                               forecast.body.current.value))
    ensures here.Position? && Readable(forecast) ==> r.view.banner == v.banner
    ensures here.Position? && !Readable(forecast) ==>
              && r.view.banner.shown
              && r.view.banner.text
                 == Message(if forecast.Response? && !forecast.Ok() then ForecastRejected else ConnectionLost)
              && r.view.container == (if forecast.Ok() && forecast.body == ForecastJson(None) then Blank else Loading)
  {
    match here
    case Position(latitude, longitude) =>
      Run([ForecastRequest(latitude, longitude)],
          FetchForecast(v.(container := Loading), latitude, longitude, HereName, HereCountry, forecast))
    case Pending => Run([], v)
    case _ => GetWeather(v, DefaultCity, geocode, forecast)
  }
}
